=== FILE: README.md ===
# Attendance booking: activity catalogue, eligibility and controller flows

A Dafny model of the decision logic of a campus attendance-booking backend.
Users book a *turno* (an attendance slot) for a scheduled *actividad*. An
activity may be restricted to one career (`restriccionId`); otherwise it is
public. The model covers three parts:

- **Activity catalogue** (`Actividades`, from `lib/models/actividad.js`).
  - Three WHERE-clause builders: date window, career visibility and active-only.
  - Their AND-conjunction in `conAutorizaciones`.
  - The outer-joined count of turnos per activity.
  - The ordering by start time, then name.
  - `esPublica`.
- **User rules** (`Usuarios`, from `lib/models/usuario.js`).
  - The `rol` enumeration and its default.
  - `esAdmin`, `puedeBorrar`, `puedePedirTurnoPara`, `estaInscriptoA`, `solicitoTurnoPara`.
  - `getIdsCarreras` and `getIdsActividadesConTurno`.
  - The user's enrollments and turnos are read from their tables by `usuarioId`.
- **Controller flows** (`ActividadController`, `TurnoController`).
  - Each request handler is a pure function from a `Store` to a `Respuesta`: the HTTP status, the body, and the store afterwards.
  - The `Store` holds, as sequences of rows, the six tables the handlers read or write (activities, spaces, users, career enrollments, turnos and authorizations), plus the next auto-increment key of the activity and turno tables, the only two tables the model inserts into.
  - The activity handlers follow `lib/controllers/actividad_controller.js`.
  - The turno handlers follow only what `lib/controllers/turno_controller.test.js` asserts, because the turno controller itself is not part of this model.

Supporting modules:

- `Base`: optional values and JavaScript truthiness.
- `Secuencias`: generic filter, projection and primary-key lookup over tables.
- `Orden`: lexicographic string order and an insertion sort.
- `Fechas`: calendar days over integer timestamps.
- `Turnos`: the turno record.
- `Almacen`: the store, its key invariant `Valido`, and the response type.

Handlers that look a row up by key and must identify it uniquely require `Valido(s)`: keys are unique and below their auto-increment counter. The database's primary keys guarantee this. Every handler that changes the store preserves it.

Behaviour of the code that the model keeps as written:

- `create` rejects a truthy `restriccionId` that the career catalogue does not know, with 400. An unknown career is refused, not dropped.
- `create` tests `restriccionId` for truthiness. A `restriccionId` of 0 skips the catalogue lookup, yet the stored activity is restricted, not public (`CreateRestriccionCeroNoSeValida`).
- `index` passes the query-string value `inactivas` to the catalogue as it is. Every non-empty string is truthy, `"false"` included, so `?inactivas=false` also lists inactive activities (`IndexInactivasFalseIncluyeInactivas`).
- `index` never passes a career list, so the listing shows restricted activities to everyone. Filtering by a user's own careers would show exactly the activities that user may book (`FiltroCarrerasDelUsuario`).
- `update` requires an existing `espacioId` in every request body. It never validates `restriccionId`.
- `getAutorizaciones` left-joins the user. Rows whose user is gone keep an absent user and sort last, as `ORDER BY ... ASC` places NULLs on PostgreSQL.

Choices where the code and its tests are silent:

- No test checks in the same turno twice. The model lets a later check-in overwrite the earlier time (`IngresoRepetidoSobrescribe`).

External inputs become parameters:

- The career catalogue (`getCarrera`) is a `set<int>` of known career ids.
- The current time used at check-in is an `int`.
- Calendar days come from the repository's date utilities, which are not part of this model. Day `d` is modelled as the seconds `[d*86400, d*86400+86399]`, in UTC.

## Model

| member | source | states |
|---|---|---|
| `Fechas.VentanaDelDia` | lib/models/actividad.js:98-104 | a timestamp lies between the start and the end of day `d` exactly when it falls on day `d`, so both date bounds are inclusive |
| `Actividades.GetFiltroFecha` | lib/models/actividad.js:97-115 | the date fragment accepts an activity iff its start is at or after the start of `desde` (when given) and at or before the end of `hasta` (when given); with neither bound it accepts everything |
| `Actividades.FiltroFechaPorDias` | lib/models/actividad.js:98-104 | with both bounds, an activity passes iff it starts on a day from `desde` to `hasta`, inclusive |
| `Actividades.FiltroFechaDesdePorDias` | lib/models/actividad.js:106-108 | with only `desde`, an activity passes iff it starts on that day or a later one |
| `Actividades.FiltroFechaHastaPorDias` | lib/models/actividad.js:110-112 | with only `hasta`, an activity passes iff it starts on that day or an earlier one |
| `Actividades.EsPublicaSegunFiltro` | lib/models/actividad.js:135-137 | an activity is public (nil `restriccionId`) exactly when it passes the career fragment for an empty career list, and a public activity passes the fragment for every list |
| `Actividades.GetFiltroCarreras` | lib/models/actividad.js:117-129 | without a career list the fragment accepts everything; with one, it accepts exactly the public activities and those restricted to a listed career |
| `Actividades.GetFiltroInactivas` | lib/models/actividad.js:131-133 | a truthy flag accepts every activity; otherwise only those with `activa` true |
| `Actividades.WhereSeleccionaExacto` | lib/models/actividad.js:87-93 | the AND of the three fragments selects exactly the activities meeting all three conditions stated on their fields |
| `Actividades.ContarTurnos` | lib/models/actividad.js:76-80 | the count is at most the number of turnos, and it is 0 exactly when no turno references the activity (the outer join keeps such activities) |
| `Actividades.ContarTurnosEsMultiplicidad` | lib/models/actividad.js:64 | the count equals the number of occurrences of the activity's id in the turno table's `actividadId` column |
| `Actividades.ContarTurnosAgregar` | lib/models/actividad.js:64 | adding a turno raises the count of its own activity by one and leaves every other count unchanged |
| `Actividades.AntesOIgualPreordenTotal` | lib/models/actividad.js:82-85 | ordering by start time, then by name, is total and transitive |
| `Actividades.ConAutorizaciones` | lib/models/actividad.js:58-95 | the rows are exactly the activities passing all filters, with their multiplicity; each row carries its turno count; rows are sorted by start time, then name |
| `Usuarios.LeerRol` | lib/models/usuario.js:49-53 | a stored role is accepted iff it is `asistente`, `bedel` or `admin`, and reads back as that name |
| `Usuarios.RolAlCrear` | lib/models/usuario.js:49-53 | an absent role becomes `asistente`; a given role is accepted iff it is in the enumeration |
| `Usuarios.RolIdaYVuelta` | lib/models/usuario.js:49-53 | every role reads back as itself after being stored by name |
| `Usuarios.EsAdmin` | lib/models/usuario.js:194-196 | a user is an admin exactly when the stored role name is `admin` |
| `Usuarios.PuedeBorrarCaracterizacion` | lib/models/usuario.js:190-196 | deletion is allowed iff the user is admin or holds the turno; another user's turno needs admin; a bedel has the same rights as an asistente |
| `Usuarios.InscripcionesDe` | lib/models/usuario.js:74-77 | the user's enrollments are exactly the enrollment rows with that user's id, each with its multiplicity in the table |
| `Usuarios.EstaInscriptoA` | lib/models/usuario.js:147-153 | true iff some enrollment row of the user has `idCarrera` equal to the career |
| `Usuarios.GetIdsCarreras` | lib/models/usuario.js:116-123 | one career id per enrollment of the user, same length and order, each the `idCarrera` of the enrollment in that position |
| `Usuarios.GetIdsCarrerasSegunInscripcion` | lib/models/usuario.js:116-153 | a career is in the user's career list iff the user is enrolled in it |
| `Usuarios.PuedePedirTurnoPara` | lib/models/usuario.js:140-145 | every user may request a turno for a public activity; for a restricted one, iff some enrollment of the user names its career |
| `Usuarios.TurnosDe` | lib/models/usuario.js:74-75 | the user's turnos are exactly the turno rows with that user's id, each with its multiplicity in the table |
| `Usuarios.SolicitoTurnoPara` | lib/models/usuario.js:155-165 | true iff some turno of the user references the activity |
| `Usuarios.GetIdsActividadesConTurno` | lib/models/usuario.js:125-138 | one entry per turno of the user: the activity id when that activity exists, absent otherwise (left join) |
| `Usuarios.IdsActividadesConTurnoSegunSolicitud` | lib/models/usuario.js:125-165 | an existing activity's id is listed iff the user has requested a turno for it |
| `Usuarios.FiltroCarrerasDelUsuario` | lib/models/actividad.js:117-129 | filtering the catalogue by the user's own career list accepts an activity iff the user may request a turno for it |
| `ActividadController.Index` | lib/controllers/actividad_controller.js:8-12 | status 200 and store unchanged; lists exactly the stored activities that the catalogue selection with no career list accepts (the date bounds and the truthiness of `inactivas`, whatever the restriction), each as often as it is stored; counts and order as in the catalogue |
| `ActividadController.IndexInactivasFalseIncluyeInactivas` | lib/controllers/actividad_controller.js:9-10 | with `inactivas` given as the string "false", an inactive activity is still listed |
| `ActividadController.GetById` | lib/controllers/actividad_controller.js:14-33 | 404 with the error message iff no activity has the id; otherwise 200 with a stored activity of that id; the store is never changed |
| `ActividadController.Create` | lib/controllers/actividad_controller.js:35-57 | a missing space gives 400 before the career check; a truthy unknown `restriccionId` gives 400; both leave the store unchanged; otherwise 201 and the store gains exactly the new row with the next key and the defaults of `activa` and `requiereControl`; the key invariant is preserved |
| `ActividadController.CreateRestriccionCeroNoSeValida` | lib/controllers/actividad_controller.js:46-53 | a `restriccionId` of 0 is created without a catalogue lookup, and the stored activity is not public |
| `ActividadController.CreateLuegoGetById` | lib/controllers/actividad_controller.js:55-56 | a created activity is then returned by `getById` with its new key |
| `ActividadController.Update` | lib/controllers/actividad_controller.js:59-84 | a missing activity gives 404, checked before the space (400); both leave the store unchanged; otherwise 200, only the rows with that id change: each sent column takes the sent value, each column not sent keeps its old value, the key never changes; the body is the patched row, which is in the new store |
| `ActividadController.UpdateLuegoGetById` | lib/controllers/actividad_controller.js:59-84 | after a successful update, `getById` of that id returns the patched row |
| `ActividadController.UpdateNoValidaRestriccion` | lib/controllers/actividad_controller.js:69-83 | an update to any career id succeeds and stores it |
| `ActividadController.DeleteById` | lib/controllers/actividad_controller.js:86-100 | 404 with the store unchanged iff no row has the id; otherwise 204, no row with that id is left, and every other row keeps its multiplicity |
| `ActividadController.DeleteLuegoGetById` | lib/controllers/actividad_controller.js:86-100 | after a successful delete, `getById` of that id gives 404 |
| `ActividadController.PorApellidoPreordenTotal` | lib/controllers/actividad_controller.js:123 | ordering by the user's surname, with missing users last, is total and transitive |
| `ActividadController.UnirUsuarios` | lib/controllers/actividad_controller.js:117-122 | each authorization keeps its position and is paired with the `id`, `nombre`, `apellido` and `dni` of the user row of its `usuarioId`, or with nothing when there is no such row |
| `ActividadController.GetAutorizaciones` | lib/controllers/actividad_controller.js:102-127 | 404 iff the activity is missing; otherwise 200 with exactly that activity's authorizations, with their multiplicity, each joined with the four projected columns of its user and sorted by surname; the store is never changed |
| `TurnoController.CreateTurno` | lib/controllers/turno_controller.test.js:134-162 | 201 iff the named user may request a turno for the named activity, and the store then gains exactly the new turno, with the sent fields and no check-in; otherwise 403 with the message "El usuario no puede pedir turno para esta actividad" and the store unchanged |
| `TurnoController.GetTurno` | lib/controllers/turno_controller.test.js:165-184 | 404 iff no turno has the id; otherwise 200 with the stored turno of that id |
| `TurnoController.CreateTurnoLuegoGet` | lib/controllers/turno_controller.test.js:134-150 | a created turno is then fetched under the next key with the sent user, activity and contact answer |
| `TurnoController.UpdateTurno` | lib/controllers/turno_controller.test.js:186-205 | 200; the rows with that id take the sent user, activity and contact answer; every other row is unchanged |
| `TurnoController.UpdateTurnoLuegoGet` | lib/controllers/turno_controller.test.js:196-204 | after an update, fetching the turno shows the sent values |
| `TurnoController.DeleteTurno` | lib/controllers/turno_controller.test.js:208-256 | 404 iff the turno is missing (never 403); 403 iff it exists and the actor may not delete it; both leave the store unchanged; 204 iff it exists and the actor may delete it (admin or holder), and then exactly that turno is removed |
| `TurnoController.AdminBorraCualquiera` | lib/controllers/turno_controller.test.js:230-236 | an admin deleting an existing turno gets 204, and the turno is then not found |
| `TurnoController.NoAdminNoBorraAjeno` | lib/controllers/turno_controller.test.js:244-248 | a non-admin deleting another user's turno gets 403 and the store is unchanged |
| `TurnoController.Ingreso` | lib/controllers/turno_controller.test.js:258-273 | 404 iff the turno is missing; otherwise 200, and exactly the rows with that id get the check-in time |
| `TurnoController.IngresoLuegoGet` | lib/controllers/turno_controller.test.js:259-267 | after check-in, the turno carries the check-in time |
| `TurnoController.IngresoRepetidoSobrescribe` | lib/controllers/turno_controller.test.js:259-267 | a second check-in replaces the first time with the later one |
| `TurnoController.FixtureCrearTurnos` | lib/controllers/turno_controller.test.js:52-162 | on the tests' fixture, booking the public activity gives 201 and turno 3; a non-enrolled user booking the career-21 activity gets 403 with the fixed message |

## Left out

- HTTP routing, `res.status`/`send` mechanics, and passport login, registration and JWT authentication. Only the status codes and bodies are modelled.
- Password hashing and checking (`validarContrasenia`, `actualizarContrasenia`, the `beforeCreate` hook), `toJSON`, and the password-recovery email with its JWT. These are cryptography and I/O.
- The registrar client (`inscripcionesPara`) and the telemetry sink. Both are remote calls. The career catalogue is a set parameter.
- The career-list cache with request coalescing. It is concurrent, and its code is not part of this model.
- Calendar and timezone arithmetic, and sub-second precision. Timestamps are whole seconds, days are in UTC, and the parsing of `desde`/`hasta` query strings is not modelled.
- SQL specifics: the `::integer` cast, the group-by keys, and database collation. Names and surnames are ordered by code point. Rows with identical sort keys may appear in any order, as in SQL.
- The nested Espacio/Edificio projection in `index` and `getById`, and the projection in `getTurnosConInfoActividades`. These are eager-loading projections with no business rule.
- ActividadController.Create: a body without `nombre` or with missing timestamps violates NOT NULL columns. The handler then throws an exception it does not handle, so the model requires those fields in `ActividadNueva`.
- ActividadController.Update: body fields other than the activity's columns are not modelled, including an `id` in the body. The exact shape of the `returning`/`plain` result is not modelled either; the data returned is the updated row.
- ActividadController.Create: an explicit `null` in the request body is treated as an absent field. For `activa` and `requiereControl` the source would store NULL instead of the column default, so such a row would be hidden from the default listing (which asks for `activa = true`). For `espacioId` the source's 400 message would read `null` where the model's reads `undefined`. The `activa` and `requiereControl` columns are booleans in the model and cannot hold NULL.
- ActividadController.Update: an explicit `null` for `activa` or `requiereControl` is treated as an absent field, so the stored value is kept, whereas the source would store NULL. An `espacioId` of `null` gets the 400 message with `undefined` instead of `null`.
- ActividadController.Create: the handler stores the whole request body. An `id` in the body would set the key itself, or fail as a duplicate key; `ActividadNueva` has no `id`, so the model always takes the next key.
- ActividadController.GetById: the route parameter `id` is a string. The model takes an integer, so the error message shows its decimal form (`007` is shown as `7`), and a non-numeric or out-of-range id, for which the database lookup throws and the request ends in an unhandled error, is not modelled.
- ActividadController.Update: the same string-versus-integer simplification of the route parameter as in `GetById`.
- ActividadController.DeleteById: the same string-versus-integer simplification of the route parameter as in `GetById`.
- ActividadController.GetAutorizaciones: the same string-versus-integer simplification of the route parameter as in `GetById`.
- ActividadController.DeleteById: cascading to the turnos and authorizations of a deleted activity is not modelled, because foreign-key behaviour is not part of this model.
- TurnoController.CreateTurno: requires the referenced user and activity rows to exist, because no test asserts the outcome otherwise. The eligibility check uses the user named by the body's `usuarioId`, which is also the requesting user in the test.
- TurnoController.CreateTurno: does not reject a second turno for the same activity and does not enforce the space's `aforo`, because no code or test shows either rule.
- TurnoController.UpdateTurno: requires the turno to exist, because no test asserts the outcome for a missing one.
- TurnoController.Ingreso: the test for a missing turno sends DELETE to the check-in path, so its 404 may come from routing. The model returns 404 for a missing turno.
- Listing all turnos (`GET /turnos`): it returns the table with no rule.
- Races between concurrent bookings and deletions. The model is sequential.
- Usuarios.RolAlCrear: rejecting a role outside `asistente`, `bedel` and `admin` assumes the database column is the ENUM that `lib/models/usuario.js:49-53` declares. The migration in `db/migrations/20210115171617-create-usuario.js:38-42` creates a plain STRING column with default `'invitado'`, and the authorization tests create a user with role `'invitado'`; on that schema such a role would be stored.
- Usuarios.LeerRol: the same ENUM assumption as `RolAlCrear`.
- The Edificios table: `Espacio.edificioId` is kept as a plain integer, because no modelled handler reads buildings.
- The Usuarios migration, whose `rol` default `'invitado'` disagrees with the model's enumeration. The Edificio model, and the Edificio, Espacio and Autorizacion CRUD tests, are plain CRUD whose controllers are not part of this model.

=== FILE: actividad_controller.dfy ===
/** The activity controller's handlers as transitions over the store:
    each returns the status the handler sends and the store afterwards.
    The career catalogue consulted by `create` is a set of known career
    ids supplied by the caller. */
module ActividadController {
  import opened Base
  import opened Secuencias
  import opened Orden
  import opened Fechas
  import opened Actividades
  import opened Usuarios
  import opened Almacen

  function MensajeSinActividad(id: int): string
  {
    "No existe una actividad con el id " + Decimal(id)
  }

  function MensajeSinEspacio(espacioId: Option<int>): string
  {
    "No existe un espacio con el id " + (if espacioId.Some? then Decimal(espacioId.value) else "undefined")
  }

  function MensajeSinCarrera(restriccionId: int): string
  {
    "No existe una carrera con el id " + Decimal(restriccionId)
  }

  function ActividadPorId(s: Store, id: int): Option<Actividad>
  {
    Buscar(s.actividades, id, IdActividad)
  }

  /** `index`: the catalogue query with the request's `desde`, `hasta` and
      `inactivas` (a query-string value, read for its truthiness) and no
      career list, so restricted activities are listed to everyone. */
  function Index(s: Store, desde: Option<int>, hasta: Option<int>, inactivas: Option<string>)
    : (r: Respuesta<seq<ActividadConTurnos>>)
    ensures r.status == Ok && r.store == s && r.cuerpo.Datos?
    ensures forall a :: a in Proyectar(r.cuerpo.data, ActividadDe) <==>
      a in s.actividades && Seleccionada(Consulta(desde, hasta, None, TextoVerdadero(inactivas)), a)
    ensures forall a :: multiset(Proyectar(r.cuerpo.data, ActividadDe))[a] == if
      Seleccionada(Consulta(desde, hasta, None, TextoVerdadero(inactivas)), a) then multiset(s.actividades)[a] else 0
    ensures forall i :: 0 <= i < |r.cuerpo.data| ==>
      r.cuerpo.data[i].turnos == ContarTurnos(s.turnos, r.cuerpo.data[i].actividad.id)
    ensures forall i, j :: 0 <= i < j < |r.cuerpo.data| ==>
      AntesOIgual(r.cuerpo.data[i].actividad, r.cuerpo.data[j].actividad)
  {
    var data := ConAutorizaciones(s.actividades, s.turnos, Consulta(desde, hasta, None, TextoVerdadero(inactivas)));
    Respuesta(Ok, Datos(data), s)
  }

  /** `?inactivas=false` arrives as the non-empty string "false", which is
      truthy: the listing then includes inactive activities. */
  lemma IndexInactivasFalseIncluyeInactivas(s: Store, a: Actividad)
    requires a in s.actividades && !a.activa
    ensures a in Proyectar(Index(s, None, None, Some("false")).cuerpo.data, ActividadDe)
  {
  }

  /** `getById`: 404 when no row has the id, otherwise that row. */
  function GetById(s: Store, id: int): (r: Respuesta<Actividad>)
    ensures r.store == s
    ensures r.status == NoEncontrado <==> !HayActividad(s, id)
    ensures r.status == NoEncontrado ==> r.cuerpo == Error(MensajeSinActividad(id))
    ensures r.status != NoEncontrado ==>
      r.status == Ok && r.cuerpo.Datos? && r.cuerpo.data in s.actividades && r.cuerpo.data.id == id
  {
    match ActividadPorId(s, id)
    case None => Respuesta(NoEncontrado, Error(MensajeSinActividad(id)), s)
    case Some(a) => Respuesta(Ok, Datos(a), s)
  }

  /** The request body of `create`. Name and times are NOT NULL columns
      and are always present here. */
  datatype ActividadNueva = ActividadNueva(
    nombre: string,
    fechaHoraInicio: int,
    fechaHoraFin: int,
    responsable: Option<string>,
    telefonoDeContactoResponsable: Option<string>,
    activa: Option<bool>,
    requiereControl: Option<bool>,
    restriccionId: Option<int>,
    espacioId: Option<int>)

  function ValorO<T>(x: Option<T>, porDefecto: T): T
  {
    if x.Some? then x.value else porDefecto
  }

  /** `Actividad.create(actividad)` with the next key; `activa` defaults to
      true and `requiereControl` to false. */
  function FilaNueva(b: ActividadNueva, id: int): Actividad
    requires b.espacioId.Some?
  {
    Actividad(id, b.nombre, b.fechaHoraInicio, b.fechaHoraFin, b.responsable,
              b.telefonoDeContactoResponsable, ValorO(b.activa, true),
              ValorO(b.requiereControl, false), b.restriccionId, b.espacioId.value)
  }

  /** `create`: the space is checked first (400), then a truthy
      `restriccionId` must name a known career (400); otherwise the row is
      inserted (201). */
  function Create(s: Store, carreras: set<int>, b: ActividadNueva): (r: Respuesta<Actividad>)
    ensures r.status != Creado ==> r.store == s && r.status == SolicitudIncorrecta
    ensures !HayEspacio(s, b.espacioId) ==> r.cuerpo == Error(MensajeSinEspacio(b.espacioId))
    ensures HayEspacio(s, b.espacioId) && EnteroVerdadero(b.restriccionId) && b.restriccionId.value !in carreras ==>
      r.cuerpo == Error(MensajeSinCarrera(b.restriccionId.value))
    ensures r.status == Creado <==>
      HayEspacio(s, b.espacioId) && (EnteroVerdadero(b.restriccionId) ==> b.restriccionId.value in carreras)
    ensures r.status == Creado ==>
      && r.cuerpo.Datos?
      && r.store == s.(actividades := s.actividades + [r.cuerpo.data], proximaActividad := s.proximaActividad + 1)
      && var a := r.cuerpo.data;
      && a.id == s.proximaActividad && a.nombre == b.nombre
      && a.fechaHoraInicio == b.fechaHoraInicio && a.fechaHoraFin == b.fechaHoraFin
      && a.responsable == b.responsable && a.telefonoDeContactoResponsable == b.telefonoDeContactoResponsable
      && a.activa == (b.activa != Some(false)) && a.requiereControl == (b.requiereControl == Some(true))
      && a.restriccionId == b.restriccionId && Some(a.espacioId) == b.espacioId
    ensures Valido(s) ==> Valido(r.store)
  {
    if b.espacioId.None? || Buscar(s.espacios, b.espacioId.value, IdEspacio).None? then
      Respuesta(SolicitudIncorrecta, Error(MensajeSinEspacio(b.espacioId)), s)
    else if EnteroVerdadero(b.restriccionId) && b.restriccionId.value !in carreras then
      Respuesta(SolicitudIncorrecta, Error(MensajeSinCarrera(b.restriccionId.value)), s)
    else
      var a := FilaNueva(b, s.proximaActividad);
      var s' := s.(actividades := s.actividades + [a], proximaActividad := s.proximaActividad + 1);
      assert Valido(s) ==> Valido(s') by {
        if Valido(s) {
          IdsUnicosAgregar(s.actividades, a, IdActividad);
        }
      }
      Respuesta(Creado, Datos(a), s')
  }

  /** A `restriccionId` of 0 is falsy: the career lookup is skipped, yet the
      stored activity is not public. */
  lemma CreateRestriccionCeroNoSeValida(s: Store, carreras: set<int>, b: ActividadNueva)
    requires HayEspacio(s, b.espacioId) && b.restriccionId == Some(0) && 0 !in carreras
    ensures Create(s, carreras, b).status == Creado
    ensures !EsPublica(Create(s, carreras, b).cuerpo.data)
  {
  }

  /** A created activity can be fetched back by its new key. */
  lemma CreateLuegoGetById(s: Store, carreras: set<int>, b: ActividadNueva)
    requires Valido(s)
    requires Create(s, carreras, b).status == Creado
    ensures var r := Create(s, carreras, b);
      GetById(r.store, r.cuerpo.data.id) == Respuesta(Ok, Datos(r.cuerpo.data), r.store)
  {
  }

  /** The body of `update`: every field optional; a nullable field is
      `Some(None)` when sent as null. */
  datatype ActividadCambios = ActividadCambios(
    nombre: Option<string>,
    fechaHoraInicio: Option<int>,
    fechaHoraFin: Option<int>,
    responsable: Option<Option<string>>,
    telefonoDeContactoResponsable: Option<Option<string>>,
    activa: Option<bool>,
    requiereControl: Option<bool>,
    restriccionId: Option<Option<int>>,
    espacioId: Option<int>)

  /** `Actividad.update(body)` on one row: sent fields replace stored ones. */
  function Aplicar(a: Actividad, c: ActividadCambios): Actividad
  {
    Actividad(
      a.id,
      ValorO(c.nombre, a.nombre),
      ValorO(c.fechaHoraInicio, a.fechaHoraInicio),
      ValorO(c.fechaHoraFin, a.fechaHoraFin),
      ValorO(c.responsable, a.responsable),
      ValorO(c.telefonoDeContactoResponsable, a.telefonoDeContactoResponsable),
      ValorO(c.activa, a.activa),
      ValorO(c.requiereControl, a.requiereControl),
      ValorO(c.restriccionId, a.restriccionId),
      ValorO(c.espacioId, a.espacioId))
  }

  /** `nuevo` is `viejo` with every sent column replaced by the sent value
      and every column not sent left as it was; the key never changes. */
  predicate CambiosAplicados(viejo: Actividad, c: ActividadCambios, nuevo: Actividad)
  {
    && nuevo.id == viejo.id
    && nuevo.nombre == (if c.nombre.Some? then c.nombre.value else viejo.nombre)
    && nuevo.fechaHoraInicio == (if c.fechaHoraInicio.Some? then c.fechaHoraInicio.value else viejo.fechaHoraInicio)
    && nuevo.fechaHoraFin == (if c.fechaHoraFin.Some? then c.fechaHoraFin.value else viejo.fechaHoraFin)
    && nuevo.responsable == (if c.responsable.Some? then c.responsable.value else viejo.responsable)
    && nuevo.telefonoDeContactoResponsable ==
         (if c.telefonoDeContactoResponsable.Some? then c.telefonoDeContactoResponsable.value
          else viejo.telefonoDeContactoResponsable)
    && nuevo.activa == (if c.activa.Some? then c.activa.value else viejo.activa)
    && nuevo.requiereControl == (if c.requiereControl.Some? then c.requiereControl.value else viejo.requiereControl)
    && nuevo.restriccionId == (if c.restriccionId.Some? then c.restriccionId.value else viejo.restriccionId)
    && nuevo.espacioId == (if c.espacioId.Some? then c.espacioId.value else viejo.espacioId)
  }

  lemma AplicarCumpleCambios(a: Actividad, c: ActividadCambios)
    ensures CambiosAplicados(a, c, Aplicar(a, c))
  {
  }

  /** `update`: 404 for a missing activity, checked before the space (400);
      otherwise the row is patched (200). `restriccionId` is never checked. */
  function Update(s: Store, id: int, c: ActividadCambios): (r: Respuesta<Actividad>)
    ensures r.status == NoEncontrado <==> !HayActividad(s, id)
    ensures r.status == NoEncontrado ==> r.store == s && r.cuerpo == Error(MensajeSinActividad(id))
    ensures r.status == SolicitudIncorrecta <==> HayActividad(s, id) && !HayEspacio(s, c.espacioId)
    ensures r.status == SolicitudIncorrecta ==> r.store == s && r.cuerpo == Error(MensajeSinEspacio(c.espacioId))
    ensures r.status == Ok <==> HayActividad(s, id) && HayEspacio(s, c.espacioId)
    ensures r.status == Ok ==>
      && r.store == s.(actividades := r.store.actividades)
      && |r.store.actividades| == |s.actividades|
      && (forall k :: 0 <= k < |s.actividades| && s.actividades[k].id != id ==>
            r.store.actividades[k] == s.actividades[k])
      && (forall k :: 0 <= k < |s.actividades| && s.actividades[k].id == id ==>
            && CambiosAplicados(s.actividades[k], c, r.store.actividades[k])
            && Some(r.store.actividades[k].espacioId) == c.espacioId)
      && r.cuerpo.Datos? && r.cuerpo.data in r.store.actividades
      && (exists a :: a in s.actividades && a.id == id && CambiosAplicados(a, c, r.cuerpo.data))
    ensures Valido(s) ==> Valido(r.store)
  {
    match ActividadPorId(s, id)
    case None => Respuesta(NoEncontrado, Error(MensajeSinActividad(id)), s)
    case Some(a) =>
      if c.espacioId.None? || Buscar(s.espacios, c.espacioId.value, IdEspacio).None? then
        Respuesta(SolicitudIncorrecta, Error(MensajeSinEspacio(c.espacioId)), s)
      else
        var f := (x: Actividad) => if x.id == id then Aplicar(x, c) else x;
        var s' := s.(actividades := Proyectar(s.actividades, f));
        assert Valido(s) ==> Valido(s') by {
          if Valido(s) {
            IdsUnicosProyectar(s.actividades, f, IdActividad);
            forall x | x in s'.actividades ensures x.id < s'.proximaActividad {
              var k :| 0 <= k < |s'.actividades| && s'.actividades[k] == x;
              assert s.actividades[k] in s.actividades;
            }
          }
        }
        assert forall k :: 0 <= k < |s.actividades| && s.actividades[k].id == id ==>
          CambiosAplicados(s.actividades[k], c, s'.actividades[k]) by {
          forall k | 0 <= k < |s.actividades| && s.actividades[k].id == id
            ensures CambiosAplicados(s.actividades[k], c, s'.actividades[k])
          {
            AplicarCumpleCambios(s.actividades[k], c);
          }
        }
        assert Aplicar(a, c) in s'.actividades by {
          var k :| 0 <= k < |s.actividades| && s.actividades[k] == a;
          assert s'.actividades[k] == Aplicar(a, c);
        }
        AplicarCumpleCambios(a, c);
        Respuesta(Ok, Datos(Aplicar(a, c)), s')
  }

  /** After a successful update, `getById` returns the patched row. */
  lemma UpdateLuegoGetById(s: Store, id: int, c: ActividadCambios)
    requires Valido(s)
    requires HayActividad(s, id) && HayEspacio(s, c.espacioId)
    ensures var r := Update(s, id, c);
      && r.status == Ok
      && GetById(r.store, id) == Respuesta(Ok, r.cuerpo, r.store)
      && exists a :: a in s.actividades && a.id == id && CambiosAplicados(a, c, GetById(r.store, id).cuerpo.data)
  {
  }

  /** Updating to a career that no catalogue knows still succeeds. */
  lemma UpdateNoValidaRestriccion(s: Store, id: int, c: ActividadCambios, carrera: int)
    requires HayActividad(s, id) && HayEspacio(s, c.espacioId)
    requires c.restriccionId == Some(Some(carrera))
    ensures Update(s, id, c).status == Ok
    ensures forall a :: a in Update(s, id, c).store.actividades && a.id == id ==> a.restriccionId == Some(carrera)
  {
  }

  /** `deleteById`: 404 when no row is destroyed, otherwise 204 with every
      row of that key gone and all other rows kept. */
  function DeleteById(s: Store, id: int): (r: Respuesta<()>)
    ensures r.status == NoEncontrado <==> !HayActividad(s, id)
    ensures r.status == NoEncontrado ==> r.store == s && r.cuerpo == Error(MensajeSinActividad(id))
    ensures r.status != NoEncontrado ==>
      && r.status == SinContenido && r.cuerpo == SinCuerpo
      && r.store == s.(actividades := r.store.actividades)
      && (forall a :: a in r.store.actividades <==> a in s.actividades && a.id != id)
      && (forall a: Actividad :: a.id != id ==> multiset(r.store.actividades)[a] == multiset(s.actividades)[a])
    ensures Valido(s) ==> Valido(r.store)
  {
    var restantes := Filtrar(s.actividades, (a: Actividad) => a.id != id);
    if |restantes| == |s.actividades| then
      assert !HayActividad(s, id) by {
        if HayActividad(s, id) {
          var a :| a in s.actividades && a.id == id;
          FiltrarQuitaAlguno(s.actividades, (a: Actividad) => a.id != id, a);
        }
      }
      Respuesta(NoEncontrado, Error(MensajeSinActividad(id)), s)
    else
      assert HayActividad(s, id) by {
        if !HayActividad(s, id) {
          FiltrarTodos(s.actividades, (a: Actividad) => a.id != id);
        }
      }
      var s' := s.(actividades := restantes);
      assert Valido(s) ==> Valido(s') by {
        if Valido(s) {
          IdsUnicosFiltrar(s.actividades, (a: Actividad) => a.id != id, IdActividad);
        }
      }
      Respuesta(SinContenido, SinCuerpo, s')
  }

  /** After a successful delete the activity is no longer found. */
  lemma DeleteLuegoGetById(s: Store, id: int)
    requires DeleteById(s, id).status == SinContenido
    ensures GetById(DeleteById(s, id).store, id).status == NoEncontrado
  {
  }

  /** A row of `getAutorizaciones`: the authorization with its user (left
      outer join, projected to four columns; absent when the user row is
      gone). */
  datatype AutorizacionConUsuario = AutorizacionConUsuario(autorizacion: Autorizacion, usuario: Option<UsuarioResumen>)

  /** The user columns the join projects: `id`, `nombre`, `apellido`, `dni`. */
  datatype UsuarioResumen = UsuarioResumen(id: int, nombre: string, apellido: string, dni: int)

  function Resumen(u: Usuario): UsuarioResumen
  {
    UsuarioResumen(u.id, u.nombre, u.apellido, u.dni)
  }

  function AutorizacionDe(x: AutorizacionConUsuario): Autorizacion { x.autorizacion }

  /** ORDER BY `Usuario.apellido` ASC; rows without a user sort last. */
  predicate PorApellido(x: AutorizacionConUsuario, y: AutorizacionConUsuario)
  {
    y.usuario.None? || (x.usuario.Some? && TextoMenorIgual(x.usuario.value.apellido, y.usuario.value.apellido))
  }

  lemma PorApellidoPreordenTotal()
    ensures PreordenTotal(PorApellido)
  {
    forall a, b ensures PorApellido(a, b) || PorApellido(b, a) {
      if a.usuario.Some? && b.usuario.Some? {
        TextoMenorIgualTotal(a.usuario.value.apellido, b.usuario.value.apellido);
      }
    }
    forall a, b, c | PorApellido(a, b) && PorApellido(b, c) ensures PorApellido(a, c) {
      if a.usuario.Some? && b.usuario.Some? && c.usuario.Some? {
        TextoMenorIgualTransitivo(a.usuario.value.apellido, b.usuario.value.apellido, c.usuario.value.apellido);
      }
    }
  }

  /** The joined user is the row with the authorization's `usuarioId`,
      or absent when there is no such row. */
  predicate UsuarioUnido(s: Store, x: AutorizacionConUsuario)
  {
    if x.usuario.Some? then
      exists v :: v in s.usuarios && v.id == x.autorizacion.usuarioId && Resumen(v) == x.usuario.value
    else forall v :: v in s.usuarios ==> v.id != x.autorizacion.usuarioId
  }

  /** The LEFT OUTER JOIN with Usuario, row by row. */
  function UnirUsuarios(s: Store, auts: seq<Autorizacion>): (r: seq<AutorizacionConUsuario>)
    ensures Proyectar(r, AutorizacionDe) == auts
    ensures forall y :: y in r ==> UsuarioUnido(s, y)
  {
    Proyectar(auts, (x: Autorizacion) =>
      AutorizacionConUsuario(x,
        match Buscar(s.usuarios, x.usuarioId, IdUsuario)
        case Some(u) => Some(Resumen(u))
        case None => None))
  }

  /** `getAutorizaciones`: 404 for a missing activity; otherwise exactly
      the authorizations of that activity, each with its user, ordered by
      the user's surname. */
  function GetAutorizaciones(s: Store, id: int): (r: Respuesta<seq<AutorizacionConUsuario>>)
    ensures r.store == s
    ensures r.status == NoEncontrado <==> !HayActividad(s, id)
    ensures r.status == NoEncontrado ==> r.cuerpo == Error(MensajeSinActividad(id))
    ensures r.status != NoEncontrado ==> r.status == Ok && r.cuerpo.Datos?
    ensures r.cuerpo.Datos? ==>
      && (forall x :: multiset(Proyectar(r.cuerpo.data, AutorizacionDe))[x] ==
            if x.actividadId == id then multiset(s.autorizaciones)[x] else 0)
      && (forall i :: 0 <= i < |r.cuerpo.data| ==> UsuarioUnido(s, r.cuerpo.data[i]))
      && (forall i, j :: 0 <= i < j < |r.cuerpo.data| ==> PorApellido(r.cuerpo.data[i], r.cuerpo.data[j]))
  {
    if ActividadPorId(s, id).None? then
      Respuesta(NoEncontrado, Error(MensajeSinActividad(id)), s)
    else
      var propias := Filtrar(s.autorizaciones, (x: Autorizacion) => x.actividadId == id);
      var unidas := UnirUsuarios(s, propias);
      PorApellidoPreordenTotal();
      var data := Ordenar(unidas, PorApellido);
      ProyectarMultiset(unidas, data, AutorizacionDe);
      assert forall i :: 0 <= i < |data| ==> UsuarioUnido(s, data[i]) by {
        forall i | 0 <= i < |data| ensures UsuarioUnido(s, data[i]) {
          assert data[i] in multiset(unidas);
        }
      }
      Respuesta(Ok, Datos(data), s)
  }
}

=== FILE: actividades.dfy ===
/** The activity catalogue query (`Actividad.conAutorizaciones`): three
    WHERE fragments combined with AND, an outer-joined turno count, and
    ORDER BY start time then name. */
module Actividades {
  import opened Base
  import opened Secuencias
  import opened Orden
  import opened Fechas
  import opened Turnos

  datatype Actividad = Actividad(
    id: int,
    nombre: string,
    fechaHoraInicio: int,
    fechaHoraFin: int,
    responsable: Option<string>,
    telefonoDeContactoResponsable: Option<string>,
    activa: bool,
    requiereControl: bool,
    /** Career the activity is restricted to; absent means public. */
    restriccionId: Option<int>,
    espacioId: int)

  function IdActividad(a: Actividad): int { a.id }

  /** `esPublica`: `isNil(restriccionId)`. */
  predicate EsPublica(a: Actividad)
  {
    a.restriccionId.None?
  }

  /** A WHERE-clause fragment produced by one of the filter builders. */
  datatype Filtro =
    | Todo                                   // `{}`
    | InicioEntre(desde: int, hasta: int)    // `fechaHoraInicio BETWEEN desde AND hasta`
    | InicioDesde(desde: int)                // `fechaHoraInicio >= desde`
    | InicioHasta(hasta: int)                // `fechaHoraInicio <= hasta`
    | RestriccionEnONula(ids: seq<int>)      // `restriccionId IN ids OR restriccionId IS NULL`
    | SoloActivas                            // `activa = true`

  /** Whether a row satisfies a fragment. */
  predicate Cumple(f: Filtro, a: Actividad)
  {
    match f
    case Todo => true
    case InicioEntre(lo, hi) => lo <= a.fechaHoraInicio <= hi
    case InicioDesde(lo) => lo <= a.fechaHoraInicio
    case InicioHasta(hi) => a.fechaHoraInicio <= hi
    case RestriccionEnONula(ids) => a.restriccionId.None? || a.restriccionId.value in ids
    case SoloActivas => a.activa
  }

  /** `getFiltroFecha`: each given bound is applied, inclusively, at its end
      of the day; a missing bound leaves that side open. */
  function GetFiltroFecha(desde: Option<int>, hasta: Option<int>): (f: Filtro)
    ensures forall a :: Cumple(f, a) <==>
      && (desde.Some? ==> InicioDelDia(desde.value) <= a.fechaHoraInicio)
      && (hasta.Some? ==> a.fechaHoraInicio <= FinDelDia(hasta.value))
  {
    if desde.Some? && hasta.Some? then InicioEntre(InicioDelDia(desde.value), FinDelDia(hasta.value))
    else if desde.Some? then InicioDesde(InicioDelDia(desde.value))
    else if hasta.Some? then InicioHasta(FinDelDia(hasta.value))
    else Todo
  }

  /** `getFiltroCarreras`: without a career list everything passes; with one,
      public activities and those restricted to a listed career pass. */
  function GetFiltroCarreras(idsCarreras: Option<seq<int>>): (f: Filtro)
    ensures forall a :: Cumple(f, a) <==>
      idsCarreras.None? || EsPublica(a) || a.restriccionId.value in idsCarreras.value
  {
    if idsCarreras.Some? then RestriccionEnONula(idsCarreras.value) else Todo
  }

  /** `getFiltroInactivas`: a truthy flag lets every activity through,
      otherwise only active ones pass. */
  function GetFiltroInactivas(inactivas: bool): (f: Filtro)
    ensures forall a :: Cumple(f, a) <==> inactivas || a.activa
  {
    if inactivas then Todo else SoloActivas
  }

  /** The options object of `conAutorizaciones` (truthiness of `inactivas`
      already evaluated). */
  datatype Consulta = Consulta(
    desde: Option<int>,
    hasta: Option<int>,
    idsCarreras: Option<seq<int>>,
    inactivas: bool)

  /** The `[Op.and]` list of the query. */
  function Where(q: Consulta): seq<Filtro>
  {
    [GetFiltroFecha(q.desde, q.hasta), GetFiltroCarreras(q.idsCarreras), GetFiltroInactivas(q.inactivas)]
  }

  predicate CumpleTodos(fs: seq<Filtro>, a: Actividad)
  {
    forall i :: 0 <= i < |fs| ==> Cumple(fs[i], a)
  }

  /** Reference selection, stated directly on the activity's fields. */
  predicate Seleccionada(q: Consulta, a: Actividad)
  {
    && (q.desde.Some? ==> InicioDelDia(q.desde.value) <= a.fechaHoraInicio)
    && (q.hasta.Some? ==> a.fechaHoraInicio <= FinDelDia(q.hasta.value))
    && (q.idsCarreras.None? || a.restriccionId.None? || a.restriccionId.value in q.idsCarreras.value)
    && (q.inactivas || a.activa)
  }

  /** The conjunction of the three fragments selects exactly the activities
      the reference selection describes. */
  lemma WhereSeleccionaExacto(q: Consulta, a: Actividad)
    ensures CumpleTodos(Where(q), a) <==> Seleccionada(q, a)
  {
    var w := Where(q);
    assert Cumple(w[0], a) && Cumple(w[1], a) && Cumple(w[2], a) ==> CumpleTodos(w, a);
  }

  /** With both bounds, an activity passes the date filter exactly when it
      starts on a day from `desde` to `hasta`, both days included. */
  lemma FiltroFechaPorDias(desde: int, hasta: int, a: Actividad)
    ensures Cumple(GetFiltroFecha(Some(desde), Some(hasta)), a)
        <==> desde <= DiaDe(a.fechaHoraInicio) <= hasta
  {
  }

  /** With only `desde`, an activity passes exactly when it starts on that
      day or later. */
  lemma FiltroFechaDesdePorDias(desde: int, a: Actividad)
    ensures Cumple(GetFiltroFecha(Some(desde), None), a) <==> desde <= DiaDe(a.fechaHoraInicio)
  {
    DesdeElDia(desde, a.fechaHoraInicio);
  }

  /** With only `hasta`, an activity passes exactly when it starts on that
      day or earlier. */
  lemma FiltroFechaHastaPorDias(hasta: int, a: Actividad)
    ensures Cumple(GetFiltroFecha(None, Some(hasta)), a) <==> DiaDe(a.fechaHoraInicio) <= hasta
  {
    HastaElDia(hasta, a.fechaHoraInicio);
  }

  /** `esPublica` agrees with the `IS NULL` branch of the career fragment: an
      activity is public exactly when it passes the fragment for an empty
      career list, and then it passes the fragment for every list. */
  lemma EsPublicaSegunFiltro(a: Actividad, ids: seq<int>)
    ensures EsPublica(a) <==> Cumple(GetFiltroCarreras(Some([])), a)
    ensures EsPublica(a) ==> Cumple(GetFiltroCarreras(Some(ids)), a)
  {
  }

  /** `COUNT("Turnos".id)` for one activity of the outer join. */
  function ContarTurnos(ts: seq<Turno>, id: int): (n: nat)
    ensures n <= |ts|
    ensures n == 0 <==> forall t :: t in ts ==> t.actividadId != id
  {
    if |ts| == 0 then 0
    else
      assert ts == [ts[0]] + ts[1..];
      (if ts[0].actividadId == id then 1 else 0) + ContarTurnos(ts[1..], id)
  }

  function ActividadIds(ts: seq<Turno>): seq<int>
  {
    Proyectar(ts, (t: Turno) => t.actividadId)
  }

  /** The count is the multiplicity of the activity's id in the turno
      table's `actividadId` column. */
  lemma {:induction false} ContarTurnosEsMultiplicidad(ts: seq<Turno>, id: int)
    ensures ContarTurnos(ts, id) == multiset(ActividadIds(ts))[id]
  {
    if |ts| > 0 {
      ContarTurnosEsMultiplicidad(ts[1..], id);
      assert ActividadIds(ts) == [ts[0].actividadId] + ActividadIds(ts[1..]);
    }
  }

  /** Booking one more turno raises the count of its own activity by one and
      of no other activity. */
  lemma {:induction false} ContarTurnosAgregar(ts: seq<Turno>, t: Turno, id: int)
    ensures ContarTurnos(ts + [t], id) == ContarTurnos(ts, id) + (if t.actividadId == id then 1 else 0)
  {
    if |ts| > 0 {
      assert (ts + [t])[1..] == ts[1..] + [t];
      ContarTurnosAgregar(ts[1..], t, id);
    }
  }

  /** One row of the result: the activity with its number of turnos. */
  datatype ActividadConTurnos = ActividadConTurnos(actividad: Actividad, turnos: nat)

  function ActividadDe(r: ActividadConTurnos): Actividad { r.actividad }

  /** ORDER BY `fechaHoraInicio` ASC, `nombre` ASC. */
  predicate AntesOIgual(x: Actividad, y: Actividad)
  {
    x.fechaHoraInicio < y.fechaHoraInicio
    || (x.fechaHoraInicio == y.fechaHoraInicio && TextoMenorIgual(x.nombre, y.nombre))
  }

  lemma AntesOIgualPreordenTotal()
    ensures PreordenTotal(AntesOIgual)
  {
    forall a, b ensures AntesOIgual(a, b) || AntesOIgual(b, a) {
      TextoMenorIgualTotal(a.nombre, b.nombre);
    }
    forall a, b, c | AntesOIgual(a, b) && AntesOIgual(b, c) ensures AntesOIgual(a, c) {
      if a.fechaHoraInicio == b.fechaHoraInicio == c.fechaHoraInicio {
        TextoMenorIgualTransitivo(a.nombre, b.nombre, c.nombre);
      }
    }
  }

  /** `conAutorizaciones`: exactly the activities (with multiplicity)
      passing all three filters, each with its turno count (0 when it has
      none), sorted by start time and then name. */
  function ConAutorizaciones(acts: seq<Actividad>, ts: seq<Turno>, q: Consulta): (r: seq<ActividadConTurnos>)
    ensures forall a :: a in Proyectar(r, ActividadDe) <==> a in acts && Seleccionada(q, a)
    ensures forall a :: multiset(Proyectar(r, ActividadDe))[a] == if Seleccionada(q, a) then multiset(acts)[a] else 0
    ensures forall i :: 0 <= i < |r| ==> r[i].turnos == ContarTurnos(ts, r[i].actividad.id)
    ensures forall i, j :: 0 <= i < j < |r| ==> AntesOIgual(r[i].actividad, r[j].actividad)
  {
    var w := Where(q);
    var filtradas := Filtrar(acts, (a: Actividad) => CumpleTodos(w, a));
    AntesOIgualPreordenTotal();
    var ordenadas := Ordenar(filtradas, AntesOIgual);
    var r := Proyectar(ordenadas, (a: Actividad) => ActividadConTurnos(a, ContarTurnos(ts, a.id)));
    assert Proyectar(r, ActividadDe) == ordenadas;
    assert forall a :: CumpleTodos(w, a) <==> Seleccionada(q, a) by {
      forall a ensures CumpleTodos(w, a) <==> Seleccionada(q, a) {
        WhereSeleccionaExacto(q, a);
      }
    }
    assert forall a :: a in ordenadas <==> a in multiset(ordenadas);
    r
  }
}

=== FILE: almacen.dfy ===
/** The persistent state the controllers read and write, as one value:
    each table is a sequence of rows, and each auto-increment key has its
    next value. Controller operations return a response together with the
    store after the request. */
module Almacen {
  import opened Base
  import opened Secuencias
  import opened Turnos
  import opened Actividades
  import opened Usuarios

  datatype Espacio = Espacio(
    id: int,
    nombre: string,
    piso: int,
    habilitado: bool,
    aforo: int,
    edificioId: int)

  function IdEspacio(e: Espacio): int { e.id }

  /** A row of the Autorizaciones table. */
  datatype Autorizacion = Autorizacion(
    id: int,
    usuarioId: int,
    actividadId: int,
    estuvoEnContacto: bool)

  datatype Store = Store(
    actividades: seq<Actividad>,
    espacios: seq<Espacio>,
    usuarios: seq<Usuario>,
    inscripciones: seq<InscripcionCarrera>,
    turnos: seq<Turno>,
    autorizaciones: seq<Autorizacion>,
    proximaActividad: int,
    proximoTurno: int)

  /** Primary keys are unique and every key handed out so far is below the
      auto-increment counter of its table. */
  predicate Valido(s: Store)
  {
    && IdsUnicos(s.actividades, IdActividad)
    && IdsUnicos(s.espacios, IdEspacio)
    && IdsUnicos(s.usuarios, IdUsuario)
    && IdsUnicos(s.turnos, IdTurno)
    && (forall a :: a in s.actividades ==> a.id < s.proximaActividad)
    && (forall t :: t in s.turnos ==> t.id < s.proximoTurno)
  }

  /** Response body: `{ data }`, `{ error }`, or nothing (204). */
  datatype Cuerpo<T> = Datos(data: T) | Error(mensaje: string) | SinCuerpo

  /** HTTP status, body, and the store after the request. */
  datatype Respuesta<T> = Respuesta(status: int, cuerpo: Cuerpo<T>, store: Store)

  const Ok: int := 200
  const Creado: int := 201
  const SinContenido: int := 204
  const SolicitudIncorrecta: int := 400
  const Prohibido: int := 403
  const NoEncontrado: int := 404

  predicate HayActividad(s: Store, id: int)
  {
    exists a :: a in s.actividades && a.id == id
  }

  predicate HayTurno(s: Store, id: int)
  {
    exists t :: t in s.turnos && t.id == id
  }

  /** `Espacio.findByPk(espacioId)` finds a row; an absent id finds none. */
  predicate HayEspacio(s: Store, espacioId: Option<int>)
  {
    espacioId.Some? && exists e :: e in s.espacios && e.id == espacioId.value
  }
}

=== FILE: base.dfy ===
/** Small shared vocabulary: optional values and the JavaScript truthiness
    tests the controllers apply to request fields. */
module Base {

  /** A value that may be absent (`undefined` in the source). A nullable
      column is an `Option` field of its row, and a request field that may
      carry an explicit `null` for it is an `Option<Option<_>>`. */
  datatype Option<+T> = None | Some(value: T)

  /** `if (x)` on a query-string parameter: absent and "" are falsy, every
      other string (including "false" and "0") is truthy. */
  predicate TextoVerdadero(x: Option<string>)
  {
    x.Some? && x.value != ""
  }

  /** `if (x)` on an integer body field: absent and 0 are falsy. */
  predicate EnteroVerdadero(x: Option<int>)
  {
    x.Some? && x.value != 0
  }

  function Digito(d: nat): char
    requires d < 10
  {
    "0123456789"[d]
  }

  /** Decimal rendering of an integer, as a template literal prints it. */
  function Decimal(n: int): string
    decreases if n < 0 then 1 - n else n
  {
    if n < 0 then "-" + Decimal(-n)
    else if n < 10 then [Digito(n)]
    else Decimal(n / 10) + [Digito(n % 10)]
  }
}

=== FILE: fechas.dfy ===
/** Calendar days over integer timestamps (seconds). The repository's date
    utilities are not part of this model: a day `d` is taken to be the
    closed interval of seconds `[d * 86400, d * 86400 + 86399]`, in UTC. */
module Fechas {

  const SegundosPorDia: int := 86400

  /** `getInicioDelDia`: first second of day `d`. */
  function InicioDelDia(d: int): int
  {
    d * SegundosPorDia
  }

  /** `getFinDelDia`: last second of day `d`. */
  function FinDelDia(d: int): int
  {
    d * SegundosPorDia + SegundosPorDia - 1
  }

  /** The day a timestamp falls on (floor division). */
  function DiaDe(t: int): int
  {
    t / SegundosPorDia
  }

  /** A day's window holds exactly the timestamps of that day, so the two
      bounds of a date filter are inclusive at both ends. */
  lemma VentanaDelDia(d: int, t: int)
    ensures InicioDelDia(d) <= t <= FinDelDia(d) <==> DiaDe(t) == d
  {
  }

  /** `t` is on or after day `d` exactly when it is not before `d`'s first second. */
  lemma DesdeElDia(d: int, t: int)
    ensures InicioDelDia(d) <= t <==> d <= DiaDe(t)
  {
  }

  /** `t` is on or before day `d` exactly when it is not after `d`'s last second. */
  lemma HastaElDia(d: int, t: int)
    ensures t <= FinDelDia(d) <==> DiaDe(t) <= d
  {
  }
}

=== FILE: orden.dfy ===
/** Orderings used by ORDER BY clauses: plain lexicographic order on
    strings and a generic insertion sort under a total preorder. */
module Orden {

  /** Lexicographic order on strings by code point; a prefix sorts first. */
  predicate TextoMenorIgual(a: string, b: string)
    decreases |a|
  {
    |a| == 0 || (|b| > 0 && (a[0] < b[0] || (a[0] == b[0] && TextoMenorIgual(a[1..], b[1..]))))
  }

  lemma {:induction false} TextoMenorIgualTotal(a: string, b: string)
    ensures TextoMenorIgual(a, b) || TextoMenorIgual(b, a)
    decreases |a|
  {
    if |a| > 0 && |b| > 0 && a[0] == b[0] {
      TextoMenorIgualTotal(a[1..], b[1..]);
    }
  }

  lemma {:induction false} TextoMenorIgualTransitivo(a: string, b: string, c: string)
    requires TextoMenorIgual(a, b) && TextoMenorIgual(b, c)
    ensures TextoMenorIgual(a, c)
    decreases |a|
  {
    if |a| > 0 && a[0] == b[0] && b[0] == c[0] {
      TextoMenorIgualTransitivo(a[1..], b[1..], c[1..]);
    }
  }

  /** `le` is total and transitive: a valid ORDER BY key comparison. */
  ghost predicate PreordenTotal<T(!new)>(le: (T, T) -> bool)
  {
    && (forall a, b :: le(a, b) || le(b, a))
    && (forall a, b, c :: le(a, b) && le(b, c) ==> le(a, c))
  }

  predicate Ordenada<T>(s: seq<T>, le: (T, T) -> bool)
  {
    forall i, j :: 0 <= i < j < |s| ==> le(s[i], s[j])
  }

  /** Inserts `x` before the first element it is not greater than. */
  function Insertar<T(!new)>(x: T, s: seq<T>, le: (T, T) -> bool): (r: seq<T>)
    requires PreordenTotal(le)
    requires Ordenada(s, le)
    ensures Ordenada(r, le)
    ensures multiset(r) == multiset(s) + multiset{x}
  {
    if |s| == 0 then [x]
    else if le(x, s[0]) then
      assert forall j :: 0 < j < |s| ==> le(s[0], s[j]);
      [x] + s
    else
      var resto := Insertar(x, s[1..], le);
      assert s == [s[0]] + s[1..];
      assert multiset(resto) == multiset(s[1..]) + multiset{x};
      assert forall y :: y in resto ==> le(s[0], y) by {
        forall y | y in resto ensures le(s[0], y) {
          assert y in multiset(resto);
          if y != x {
            assert y in multiset(s[1..]);
            assert y in s[1..];
          }
        }
      }
      [s[0]] + resto
  }

  /** Insertion sort: a sorted permutation of `s`. */
  function Ordenar<T(!new)>(s: seq<T>, le: (T, T) -> bool): (r: seq<T>)
    requires PreordenTotal(le)
    ensures Ordenada(r, le)
    ensures multiset(r) == multiset(s)
    ensures |r| == |s|
  {
    if |s| == 0 then []
    else
      assert s == [s[0]] + s[1..];
      Insertar(s[0], Ordenar(s[1..], le), le)
  }
}

=== FILE: secuencias.dfy ===
/** Generic operations over tables held as sequences of rows: the WHERE
    filter, the column projection, and lookup by primary key. */
module Secuencias {
  import opened Base

  /** Rows of `s` satisfying `p`, in table order (a WHERE clause). */
  function Filtrar<T(!new)>(s: seq<T>, p: T -> bool): (r: seq<T>)
    ensures |r| <= |s|
    ensures forall x :: x in r <==> x in s && p(x)
    ensures forall x :: multiset(r)[x] == if p(x) then multiset(s)[x] else 0
  {
    if |s| == 0 then []
    else
      var resto := Filtrar(s[1..], p);
      assert s == [s[0]] + s[1..];
      if p(s[0]) then [s[0]] + resto else resto
  }

  /** A filter every row passes keeps the table as it is. */
  lemma {:induction false} FiltrarTodos<T(!new)>(s: seq<T>, p: T -> bool)
    requires forall x :: x in s ==> p(x)
    ensures Filtrar(s, p) == s
  {
    if |s| > 0 {
      FiltrarTodos(s[1..], p);
      assert s == [s[0]] + s[1..];
    }
  }

  /** A filter some row fails drops at least one row. */
  lemma {:induction false} FiltrarQuitaAlguno<T(!new)>(s: seq<T>, p: T -> bool, x: T)
    requires x in s && !p(x)
    ensures |Filtrar(s, p)| < |s|
  {
    if s[0] != x {
      assert x in s[1..];
      FiltrarQuitaAlguno(s[1..], p, x);
    }
  }

  /** The column `f` of every row, same length and order (`pluck`). */
  function Proyectar<T, U>(s: seq<T>, f: T -> U): (r: seq<U>)
    ensures |r| == |s|
    ensures forall i :: 0 <= i < |s| ==> r[i] == f(s[i])
  {
    seq(|s|, i requires 0 <= i < |s| => f(s[i]))
  }

  /** No two rows share a primary key. */
  predicate IdsUnicos<T>(s: seq<T>, idDe: T -> int)
  {
    forall i, j :: 0 <= i < j < |s| ==> idDe(s[i]) != idDe(s[j])
  }

  /** `findByPk`: the row with primary key `id`, if any. */
  function Buscar<T(!new)>(s: seq<T>, id: int, idDe: T -> int): (r: Option<T>)
    ensures r.Some? ==> r.value in s && idDe(r.value) == id
    ensures r.None? <==> forall x :: x in s ==> idDe(x) != id
  {
    if |s| == 0 then None
    else if idDe(s[0]) == id then Some(s[0])
    else Buscar(s[1..], id, idDe)
  }

  /** With unique keys, the row found is the only row carrying that key. */
  lemma {:induction false} BuscarUnico<T(!new)>(s: seq<T>, x: T, idDe: T -> int)
    requires IdsUnicos(s, idDe)
    requires x in s
    ensures Buscar(s, idDe(x), idDe) == Some(x)
  {
  }

  lemma IdsUnicosCola<T>(s: seq<T>, idDe: T -> int)
    requires |s| > 0 && IdsUnicos(s, idDe)
    ensures IdsUnicos(s[1..], idDe)
    ensures forall y :: y in s[1..] ==> idDe(y) != idDe(s[0])
  {
  }

  lemma IdsUnicosCons<T>(x: T, r: seq<T>, idDe: T -> int)
    requires IdsUnicos(r, idDe)
    requires forall y :: y in r ==> idDe(y) != idDe(x)
    ensures IdsUnicos([x] + r, idDe)
  {
  }

  /** Unique keys survive dropping rows. */
  lemma {:induction false} IdsUnicosFiltrar<T(!new)>(s: seq<T>, p: T -> bool, idDe: T -> int)
    requires IdsUnicos(s, idDe)
    ensures IdsUnicos(Filtrar(s, p), idDe)
  {
    if |s| > 0 {
      IdsUnicosCola(s, idDe);
      IdsUnicosFiltrar(s[1..], p, idDe);
      if p(s[0]) {
        IdsUnicosCons(s[0], Filtrar(s[1..], p), idDe);
      }
    }
  }

  /** Unique keys survive rewriting rows in place without touching keys. */
  lemma IdsUnicosProyectar<T>(s: seq<T>, f: T -> T, idDe: T -> int)
    requires IdsUnicos(s, idDe)
    requires forall x :: idDe(f(x)) == idDe(x)
    ensures IdsUnicos(Proyectar(s, f), idDe)
  {
  }

  /** Unique keys survive appending a row with a key not yet in use. */
  lemma IdsUnicosAgregar<T>(s: seq<T>, x: T, idDe: T -> int)
    requires IdsUnicos(s, idDe)
    requires forall k :: 0 <= k < |s| ==> idDe(s[k]) != idDe(x)
    ensures IdsUnicos(s + [x], idDe)
  {
  }

  lemma MultisetSinPosicion<T>(b: seq<T>, k: int)
    requires 0 <= k < |b|
    ensures multiset(b[..k] + b[k + 1..]) == multiset(b) - multiset{b[k]}
  {
    assert b == b[..k] + [b[k]] + b[k + 1..];
  }

  lemma ProyectarSinPosicion<T, U>(b: seq<T>, k: int, f: T -> U)
    requires 0 <= k < |b|
    ensures multiset(Proyectar(b, f)) == multiset(Proyectar(b[..k] + b[k + 1..], f)) + multiset{f(b[k])}
  {
    var pb := Proyectar(b, f);
    assert Proyectar(b[..k] + b[k + 1..], f) == pb[..k] + pb[k + 1..];
    MultisetSinPosicion(pb, k);
  }

  /** Projecting a column commutes with reordering the rows. */
  lemma {:induction false} ProyectarMultiset<T, U>(a: seq<T>, b: seq<T>, f: T -> U)
    requires multiset(a) == multiset(b)
    ensures multiset(Proyectar(a, f)) == multiset(Proyectar(b, f))
    decreases |a|
  {
    if |a| > 0 {
      var x := a[0];
      assert x in multiset(b);
      var k :| 0 <= k < |b| && b[k] == x;
      var a', b' := a[..0] + a[1..], b[..k] + b[k + 1..];
      assert a' == a[1..];
      MultisetSinPosicion(a, 0);
      MultisetSinPosicion(b, k);
      ProyectarMultiset(a', b', f);
      calc {
        multiset(Proyectar(a, f));
        { ProyectarSinPosicion(a, 0, f); }
        multiset(Proyectar(a', f)) + multiset{f(x)};
        multiset(Proyectar(b', f)) + multiset{f(x)};
        { ProyectarSinPosicion(b, k, f); }
        multiset(Proyectar(b, f));
      }
    }
  }
}

=== FILE: turno_controller.dfy ===
/** The turno endpoints, limited to the outcomes the turno controller's
    tests assert; the controller itself is not part of this model. */
module TurnoController {
  import opened Base
  import opened Secuencias
  import opened Turnos
  import opened Actividades
  import opened Usuarios
  import opened Almacen

  const MensajeNoPuedePedir: string := "El usuario no puede pedir turno para esta actividad"

  /** The body sent to create or update a turno. */
  datatype TurnoDatos = TurnoDatos(usuarioId: int, actividadId: int, estuvoEnContacto: bool)

  predicate HayUsuario(s: Store, id: int)
  {
    exists u :: u in s.usuarios && u.id == id
  }

  /** Create a turno: allowed (201) exactly when the named user may request
      a turno for the named activity, refused with 403 and the fixed
      message otherwise. Missing user or activity rows are not covered by
      any test and are excluded. */
  function CreateTurno(s: Store, b: TurnoDatos): (r: Respuesta<Turno>)
    requires Valido(s)
    requires HayActividad(s, b.actividadId) && HayUsuario(s, b.usuarioId)
    ensures forall u, a :: u in s.usuarios && u.id == b.usuarioId && a in s.actividades && a.id == b.actividadId ==>
      (r.status == Creado <==> PuedePedirTurnoPara(u, s.inscripciones, a))
    ensures r.status != Creado ==>
      r.status == Prohibido && r.cuerpo == Error(MensajeNoPuedePedir) && r.store == s
    ensures r.status == Creado ==>
      && r.cuerpo == Datos(Turno(s.proximoTurno, b.usuarioId, b.actividadId, b.estuvoEnContacto, None))
      && r.store == s.(turnos := s.turnos + [r.cuerpo.data], proximoTurno := s.proximoTurno + 1)
    ensures Valido(r.store)
  {
    var u := Buscar(s.usuarios, b.usuarioId, IdUsuario).value;
    var a := Buscar(s.actividades, b.actividadId, IdActividad).value;
    BuscarUnico(s.usuarios, u, IdUsuario);
    BuscarUnico(s.actividades, a, IdActividad);
    assert forall v :: v in s.usuarios && v.id == b.usuarioId ==> v == u by {
      forall v | v in s.usuarios && v.id == b.usuarioId ensures v == u {
        BuscarUnico(s.usuarios, v, IdUsuario);
      }
    }
    assert forall x :: x in s.actividades && x.id == b.actividadId ==> x == a by {
      forall x | x in s.actividades && x.id == b.actividadId ensures x == a {
        BuscarUnico(s.actividades, x, IdActividad);
      }
    }
    if PuedePedirTurnoPara(u, s.inscripciones, a) then
      var t := Turno(s.proximoTurno, b.usuarioId, b.actividadId, b.estuvoEnContacto, None);
      IdsUnicosAgregar(s.turnos, t, IdTurno);
      Respuesta(Creado, Datos(t), s.(turnos := s.turnos + [t], proximoTurno := s.proximoTurno + 1))
    else
      Respuesta(Prohibido, Error(MensajeNoPuedePedir), s)
  }

  /** Fetch a turno: 404 when absent, otherwise that row. */
  function GetTurno(s: Store, id: int): (r: Respuesta<Turno>)
    ensures r.store == s
    ensures r.status == NoEncontrado <==> !HayTurno(s, id)
    ensures r.status != NoEncontrado ==>
      r.status == Ok && r.cuerpo.Datos? && r.cuerpo.data in s.turnos && r.cuerpo.data.id == id
  {
    match Buscar(s.turnos, id, IdTurno)
    case None => Respuesta(NoEncontrado, SinCuerpo, s)
    case Some(t) => Respuesta(Ok, Datos(t), s)
  }

  /** A created turno is then fetched with the sent user, activity and
      contact answer, and no check-in yet. */
  lemma CreateTurnoLuegoGet(s: Store, b: TurnoDatos)
    requires Valido(s)
    requires HayActividad(s, b.actividadId) && HayUsuario(s, b.usuarioId)
    requires CreateTurno(s, b).status == Creado
    ensures var g := GetTurno(CreateTurno(s, b).store, s.proximoTurno);
      && g.status == Ok
      && g.cuerpo.data.usuarioId == b.usuarioId
      && g.cuerpo.data.actividadId == b.actividadId
      && g.cuerpo.data.estuvoEnContacto == b.estuvoEnContacto
      && g.cuerpo.data.fechaHoraIngreso.None?
  {
  }

  /** Update a turno: the sent user, activity and contact answer replace
      the stored ones (200). Updating a missing turno is not covered by
      any test and is excluded. */
  function UpdateTurno(s: Store, id: int, b: TurnoDatos): (r: Respuesta<Turno>)
    requires HayTurno(s, id)
    ensures r.status == Ok
    ensures r.store == s.(turnos := r.store.turnos) && |r.store.turnos| == |s.turnos|
    ensures forall k :: 0 <= k < |s.turnos| ==>
      var t, t' := s.turnos[k], r.store.turnos[k];
      if t.id == id then
        t' == t.(usuarioId := b.usuarioId, actividadId := b.actividadId, estuvoEnContacto := b.estuvoEnContacto)
      else t' == t
    ensures Valido(s) ==> Valido(r.store)
  {
    var f := (t: Turno) =>
      if t.id == id then t.(usuarioId := b.usuarioId, actividadId := b.actividadId, estuvoEnContacto := b.estuvoEnContacto)
      else t;
    var s' := s.(turnos := Proyectar(s.turnos, f));
    assert Valido(s) ==> Valido(s') by {
      if Valido(s) {
        IdsUnicosProyectar(s.turnos, f, IdTurno);
        forall t | t in s'.turnos ensures t.id < s'.proximoTurno {
          var k :| 0 <= k < |s'.turnos| && s'.turnos[k] == t;
          assert s.turnos[k] in s.turnos;
        }
      }
    }
    var t := Buscar(s'.turnos, id, IdTurno);
    assert t.Some? by {
      var x :| x in s.turnos && x.id == id;
      var k :| 0 <= k < |s.turnos| && s.turnos[k] == x;
      assert s'.turnos[k] in s'.turnos;
    }
    Respuesta(Ok, Datos(t.value), s')
  }

  /** After an update, fetching the turno shows the sent values. */
  lemma UpdateTurnoLuegoGet(s: Store, id: int, b: TurnoDatos)
    requires Valido(s) && HayTurno(s, id)
    ensures var g := GetTurno(UpdateTurno(s, id, b).store, id);
      && g.status == Ok
      && g.cuerpo.data.usuarioId == b.usuarioId
      && g.cuerpo.data.actividadId == b.actividadId
      && g.cuerpo.data.estuvoEnContacto == b.estuvoEnContacto
  {
  }

  /** Delete a turno: existence is checked first (404), then the actor's
      right to delete it (403); otherwise the row is removed (204). */
  function DeleteTurno(s: Store, actor: Usuario, id: int): (r: Respuesta<()>)
    requires Valido(s)
    ensures r.status == NoEncontrado <==> !HayTurno(s, id)
    ensures r.status == Prohibido <==> exists t :: t in s.turnos && t.id == id && !PuedeBorrar(actor, t)
    ensures r.status == SinContenido <==> exists t :: t in s.turnos && t.id == id && PuedeBorrar(actor, t)
    ensures r.status != SinContenido ==> r.store == s
    ensures r.status == SinContenido ==>
      && r.store == s.(turnos := r.store.turnos)
      && (forall t :: t in r.store.turnos <==> t in s.turnos && t.id != id)
    ensures Valido(r.store)
  {
    match Buscar(s.turnos, id, IdTurno)
    case None => Respuesta(NoEncontrado, SinCuerpo, s)
    case Some(t) =>
      BuscarUnico(s.turnos, t, IdTurno);
      assert forall x :: x in s.turnos && x.id == id ==> x == t by {
        forall x | x in s.turnos && x.id == id ensures x == t {
          BuscarUnico(s.turnos, x, IdTurno);
        }
      }
      if !PuedeBorrar(actor, t) then
        Respuesta(Prohibido, SinCuerpo, s)
      else
        IdsUnicosFiltrar(s.turnos, (x: Turno) => x.id != id, IdTurno);
        Respuesta(SinContenido, SinCuerpo, s.(turnos := Filtrar(s.turnos, (x: Turno) => x.id != id)))
  }

  /** An admin deletes any existing turno; afterwards it is not found. */
  lemma AdminBorraCualquiera(s: Store, admin: Usuario, id: int)
    requires Valido(s) && HayTurno(s, id) && admin.rol == Admin
    ensures DeleteTurno(s, admin, id).status == SinContenido
    ensures GetTurno(DeleteTurno(s, admin, id).store, id).status == NoEncontrado
  {
  }

  /** A non-admin deleting another user's turno is refused and nothing
      changes; a missing turno is reported as 404, never 403. */
  lemma NoAdminNoBorraAjeno(s: Store, actor: Usuario, t: Turno)
    requires Valido(s) && t in s.turnos && actor.rol != Admin && t.usuarioId != actor.id
    ensures DeleteTurno(s, actor, t.id) == Respuesta(Prohibido, SinCuerpo, s)
  {
  }

  /** `POST /turnos/:id/ingreso`: 404 when absent, otherwise the check-in
      time becomes `ahora` (200), overwriting any earlier one. */
  function Ingreso(s: Store, id: int, ahora: int): (r: Respuesta<Turno>)
    ensures r.status == NoEncontrado <==> !HayTurno(s, id)
    ensures r.status == NoEncontrado ==> r.store == s
    ensures r.status != NoEncontrado ==>
      && r.status == Ok
      && r.store == s.(turnos := r.store.turnos) && |r.store.turnos| == |s.turnos|
      && forall k :: 0 <= k < |s.turnos| ==>
           r.store.turnos[k] == if s.turnos[k].id == id then s.turnos[k].(fechaHoraIngreso := Some(ahora)) else s.turnos[k]
    ensures Valido(s) ==> Valido(r.store)
  {
    match Buscar(s.turnos, id, IdTurno)
    case None => Respuesta(NoEncontrado, SinCuerpo, s)
    case Some(t) =>
      var f := (x: Turno) => if x.id == id then x.(fechaHoraIngreso := Some(ahora)) else x;
      var s' := s.(turnos := Proyectar(s.turnos, f));
      assert Valido(s) ==> Valido(s') by {
        if Valido(s) {
          IdsUnicosProyectar(s.turnos, f, IdTurno);
          forall x | x in s'.turnos ensures x.id < s'.proximoTurno {
            var k :| 0 <= k < |s'.turnos| && s'.turnos[k] == x;
            assert s.turnos[k] in s.turnos;
          }
        }
      }
      Respuesta(Ok, Datos(t.(fechaHoraIngreso := Some(ahora))), s')
  }

  /** After check-in the turno carries the check-in time. */
  lemma IngresoLuegoGet(s: Store, id: int, ahora: int)
    requires Valido(s) && HayTurno(s, id)
    ensures Valido(Ingreso(s, id, ahora).store) && HayTurno(Ingreso(s, id, ahora).store, id)
    ensures GetTurno(Ingreso(s, id, ahora).store, id).cuerpo.data.fechaHoraIngreso == Some(ahora)
  {
  }

  /** Check-in is not guarded against repetition: a second check-in keeps
      only the later time. */
  lemma IngresoRepetidoSobrescribe(s: Store, id: int, ahora: int, despues: int)
    requires Valido(s) && HayTurno(s, id)
    ensures var s1 := Ingreso(s, id, ahora).store;
      GetTurno(Ingreso(s1, id, despues).store, id).cuerpo.data.fechaHoraIngreso == Some(despues)
  {
  }

  /** The turno tests' fixture: activity 1 is public, activity 2 is
      restricted to career 21; user 1 (the requester) has no enrollment,
      user 2 is an asistente; turnos 1 and 2 exist. */
  function Fixture(): Store
  {
    var act1 := Actividad(1, "Clase de laboratorio", 0, 0, Some("Mariela Tocino"), None, true, false, None, 1);
    var act2 := Actividad(2, "Lectura grupal", 0, 0, Some("Marcela Peperoni"), None, true, false, Some(21), 2);
    var admin := Usuario(1, "Admin", "Admin", 1, "0", "admin@example.com", Admin, None);
    var usuario := Usuario(2, "Usuario", "Prueba", 2, "1", "usuario_2@gmail.com", Asistente, None);
    Store(
      [act1, act2],
      [Espacio(1, "Laboratorio 3", 1, false, 15, 1), Espacio(2, "Biblioteca", 1, true, 20, 2)],
      [admin, usuario],
      [],
      [Turno(1, 2, 1, false, None), Turno(2, 2, 2, true, None)],
      [],
      3, 3)
  }

  /** Creating a turno for the public activity yields 201 and turno 3 with
      the sent fields; requesting the restricted one for a non-enrolled
      user yields 403 with the fixed message. */
  lemma FixtureCrearTurnos()
    ensures Valido(Fixture())
    ensures var r := CreateTurno(Fixture(), TurnoDatos(2, 1, true));
      && r.status == Creado
      && r.cuerpo.data == Turno(3, 2, 1, true, None)
    ensures CreateTurno(Fixture(), TurnoDatos(1, 2, true)) == Respuesta(Prohibido, Error(MensajeNoPuedePedir), Fixture())
  {
  }
}

=== FILE: turnos.dfy ===
/** The Turno record: one user's booked attendance slot for an activity.
    The repository's turno model is not part of this model; the fields are
    those its controller tests send and read back. */
module Turnos {
  import opened Base

  datatype Turno = Turno(
    id: int,
    usuarioId: int,
    actividadId: int,
    estuvoEnContacto: bool,
    /** Check-in time; absent until the holder arrives. */
    fechaHoraIngreso: Option<int>)

  function IdTurno(t: Turno): int { t.id }
}

=== FILE: usuarios.dfy ===
/** The user model's authorization and eligibility rules
    (`Usuario.esAdmin`, `puedeBorrar`, `puedePedirTurnoPara`, ...). The
    user's associations are read from the enrollment and turno tables by
    `usuarioId`, as the generated association getters do. */
module Usuarios {
  import opened Base
  import opened Secuencias
  import opened Turnos
  import opened Actividades

  /** The `rol` column: ENUM('asistente', 'bedel', 'admin'). */
  datatype Rol = Asistente | Bedel | Admin

  /** `defaultValue: 'asistente'`. */
  const RolPorDefecto: Rol := Asistente

  function NombreRol(r: Rol): string
  {
    match r
    case Asistente => "asistente"
    case Bedel => "bedel"
    case Admin => "admin"
  }

  /** Reads a stored `rol` value; anything outside the ENUM is rejected. */
  function LeerRol(s: string): (r: Option<Rol>)
    ensures r.Some? ==> NombreRol(r.value) == s
    ensures r.None? <==> s !in {"asistente", "bedel", "admin"}
  {
    if s == "asistente" then Some(Asistente)
    else if s == "bedel" then Some(Bedel)
    else if s == "admin" then Some(Admin)
    else None
  }

  /** The `rol` given at creation: absent means the default, an ENUM value
      is kept, any other string fails validation. */
  function RolAlCrear(rol: Option<string>): (r: Option<Rol>)
    ensures rol.None? ==> r == Some(Asistente)
    ensures rol.Some? ==> r.Some? == (rol.value in {"asistente", "bedel", "admin"})
    ensures rol.Some? && r.Some? ==> NombreRol(r.value) == rol.value
  {
    if rol.None? then Some(RolPorDefecto) else LeerRol(rol.value)
  }

  /** Every role survives being stored and read back. */
  lemma RolIdaYVuelta(r: Rol)
    ensures LeerRol(NombreRol(r)) == Some(r)
  {
  }

  datatype Usuario = Usuario(
    id: int,
    nombre: string,
    apellido: string,
    dni: int,
    telefono: string,
    email: string,
    rol: Rol,
    fechaSincronizacionGuarani: Option<int>)

  function IdUsuario(u: Usuario): int { u.id }

  /** A row of the InscripcionCarrera table. */
  datatype InscripcionCarrera = InscripcionCarrera(usuarioId: int, idCarrera: int)

  /** `esAdmin`: the stored role name is `'admin'`. */
  function EsAdmin(u: Usuario): (r: bool)
    ensures r <==> NombreRol(u.rol) == "admin"
  {
    u.rol == Admin
  }

  /** `puedeBorrar(turno)`: admins, or the turno's own holder. */
  predicate PuedeBorrar(u: Usuario, t: Turno)
  {
    EsAdmin(u) || t.usuarioId == u.id
  }

  /** Only an admin may delete a turno held by someone else; a bedel has the
      same deletion rights as an asistente. */
  lemma PuedeBorrarCaracterizacion(u: Usuario, t: Turno)
    ensures PuedeBorrar(u, t) <==> u.rol == Admin || t.usuarioId == u.id
    ensures t.usuarioId != u.id ==> (PuedeBorrar(u, t) <==> u.rol == Admin)
    ensures PuedeBorrar(u.(rol := Bedel), t) == PuedeBorrar(u.(rol := Asistente), t)
  {
  }

  /** `getInscripcionCarreras()`: the user's rows, in table order. */
  function InscripcionesDe(u: Usuario, ins: seq<InscripcionCarrera>): (r: seq<InscripcionCarrera>)
    ensures forall i :: i in r <==> i in ins && i.usuarioId == u.id
    ensures forall i :: multiset(r)[i] == if i.usuarioId == u.id then multiset(ins)[i] else 0
  {
    Filtrar(ins, (i: InscripcionCarrera) => i.usuarioId == u.id)
  }

  /** `estaInscriptoA(carreraId)`: the enrollment query with
      `idCarrera = carreraId` is not empty. */
  function EstaInscriptoA(u: Usuario, ins: seq<InscripcionCarrera>, carreraId: int): (r: bool)
    ensures r <==> exists k :: 0 <= k < |ins| && ins[k].usuarioId == u.id && ins[k].idCarrera == carreraId
  {
    var filas := Filtrar(InscripcionesDe(u, ins), (i: InscripcionCarrera) => i.idCarrera == carreraId);
    assert forall k :: 0 <= k < |ins| && ins[k].usuarioId == u.id && ins[k].idCarrera == carreraId ==>
      ins[k] in filas;
    |filas| != 0
  }

  /** `getIdsCarreras`: the `idCarrera` of each of the user's enrollments,
      one per row, in order. */
  function GetIdsCarreras(u: Usuario, ins: seq<InscripcionCarrera>): (ids: seq<int>)
    ensures |ids| == |InscripcionesDe(u, ins)|
    ensures forall k :: 0 <= k < |ids| ==> ids[k] == InscripcionesDe(u, ins)[k].idCarrera
  {
    Proyectar(InscripcionesDe(u, ins), (i: InscripcionCarrera) => i.idCarrera)
  }

  /** The career list and the enrollment check agree. */
  lemma GetIdsCarrerasSegunInscripcion(u: Usuario, ins: seq<InscripcionCarrera>, c: int)
    ensures c in GetIdsCarreras(u, ins) <==> EstaInscriptoA(u, ins, c)
  {
  }

  /** `puedePedirTurnoPara`: public activities are open to everyone, a
      restricted one only to users enrolled in its career. */
  function PuedePedirTurnoPara(u: Usuario, ins: seq<InscripcionCarrera>, a: Actividad): (r: bool)
    ensures EsPublica(a) ==> r
    ensures !EsPublica(a) ==> (r <==> exists k :: 0 <= k < |ins| && ins[k].usuarioId == u.id && ins[k].idCarrera == a.restriccionId.value)
  {
    EsPublica(a) || EstaInscriptoA(u, ins, a.restriccionId.value)
  }

  /** `getTurnos()`: the user's turnos, in table order. */
  function TurnosDe(u: Usuario, ts: seq<Turno>): (r: seq<Turno>)
    ensures forall t :: t in r <==> t in ts && t.usuarioId == u.id
    ensures forall t :: multiset(r)[t] == if t.usuarioId == u.id then multiset(ts)[t] else 0
  {
    Filtrar(ts, (t: Turno) => t.usuarioId == u.id)
  }

  /** `solicitoTurnoPara(actividad)`: the user holds a turno for it. */
  function SolicitoTurnoPara(u: Usuario, ts: seq<Turno>, a: Actividad): (r: bool)
    ensures r <==> exists t :: t in ts && t.usuarioId == u.id && t.actividadId == a.id
  {
    var filas := Filtrar(TurnosDe(u, ts), (t: Turno) => t.actividadId == a.id);
    assert forall t :: t in ts && t.usuarioId == u.id && t.actividadId == a.id ==> t in filas;
    |filas| != 0
  }

  /** The `Actividad.id` column of the user's turnos joined (left outer)
      with their activities: absent when the activity row is gone. */
  function GetIdsActividadesConTurno(u: Usuario, ts: seq<Turno>, acts: seq<Actividad>): (r: seq<Option<int>>)
    ensures |r| == |TurnosDe(u, ts)|
    ensures forall k :: 0 <= k < |r| ==>
      r[k] == (if exists a :: a in acts && a.id == TurnosDe(u, ts)[k].actividadId
               then Some(TurnosDe(u, ts)[k].actividadId) else None)
  {
    Proyectar(TurnosDe(u, ts), (t: Turno) =>
      match Buscar(acts, t.actividadId, IdActividad)
      case Some(a) => Some(a.id)
      case None => None)
  }

  /** For an existing activity, its id is listed exactly when the user has
      requested a turno for it. */
  lemma IdsActividadesConTurnoSegunSolicitud(u: Usuario, ts: seq<Turno>, acts: seq<Actividad>, a: Actividad)
    requires a in acts
    ensures Some(a.id) in GetIdsActividadesConTurno(u, ts, acts) <==> SolicitoTurnoPara(u, ts, a)
  {
  }

  /** Filtering the catalogue by the user's own careers shows exactly the
      activities the user may request a turno for. */
  lemma FiltroCarrerasDelUsuario(u: Usuario, ins: seq<InscripcionCarrera>, a: Actividad)
    ensures Cumple(GetFiltroCarreras(Some(GetIdsCarreras(u, ins))), a) <==> PuedePedirTurnoPara(u, ins, a)
  {
  }
}
